=== FILE: README.md ===
# foldersync in Dafny

A model of the one-way folder mirroring in `main.py` of foldersync. Every polling cycle,
`FileSync.sync` lists the regular files of the source folder and of the replica folder
(`read_folders`) and then runs `content_sync`. That pass copies every source file that the
replica lacks and copies over every file whose MD5 digest differs. A file whose digest
already agrees is only logged as already present. Last, it deletes every replica file the
source does not list. Digests come from `get_hash`, which feeds the file to MD5 in 4096-byte
blocks. A `FileSync` object is only built when both folder paths exist (`location_check`).

The project has five modules:

- `Results` (`results.dfy`): the value-or-error type that stands for a raised exception.
- `Hashing` (`hashing.dfy`): bytes and the block reader. MD5 is the parameter `md5`, and
  nothing is assumed about it. The streaming hasher is `Hasher`, and `GetHash` is `get_hash`.
- `Folders` (`folders.dfy`): a folder is a `map<string, Node>`, where a node is a file
  with its bytes or a sub-folder. It also holds the `scandir` listing, `read_folders`
  (`FileNames`, `ReadFolders`) and the guarded constructor (`NewFileSync`).
- `Sync` (`sync.dfy`): `content_sync`. `Reconcile` is the reference definition, a fold of
  one step per listed name. `ContentSync` is the method written the way main.py writes it,
  hashing through `GetHash`. The lemmas give the closed form of the result: when the
  pass raises, the log, and the replica afterwards.
- `SyncLoop` (`cycle.dfy`): one loop iteration, `read_folders` then `content_sync`, with
  convergence and idempotence.

Errors are modelled, not excluded. On Linux, `open`, `shutil.copy2` and `os.remove` raise
`FileNotFoundError` for a missing entry and `IsADirectoryError` for a folder where a file is
expected. Other platforms raise other classes (`PermissionError`, for instance); the
contracts only tell a completed pass from a raised one. Either error stops the pass, and
the changes made before it stay in the replica: `ReconcileFrame` holds for every outcome.
`ReconcileRaises` and `CycleRaises` state exactly when this happens. For a cycle on folders
that `scandir` lists, it happens exactly when a source file has the same name as a replica
sub-folder. `sync` catches only `KeyboardInterrupt`, so that exception ends the program on
the first such cycle.

`content_sync` handles one folder level. It gets regular files only, never recurses into
a sub-folder and never changes a replica sub-folder. It logs an "already exists" record for
every unchanged file.

## Model

| member | source | states |
|---|---|---|
| Hashing.ReadBlock | main.py:22 | `file.read(4096)` returns the next bytes from the offset and advances past them. It returns at most the requested count, and fewer only at end of file. |
| Hashing.GetHash | main.py:12-25 | The digest returned is what the hasher yields after absorbing the blocks read, in order. Those blocks are non-empty and at most 4096 bytes long, all but the last are full, and they concatenate to the rest of the file. So the result is the MD5 of that content. |
| Hashing.AbsorbIsConcatenation | main.py:22-23 | Calling `update` block by block absorbs exactly the concatenation of the blocks, in order. |
| Hashing.ChunkingIrrelevant | main.py:19-25 | The streamed digest depends on the content only. Two chunkings of the same bytes give the same digest, namely the one-shot digest of the content. |
| Folders.FileIndices | main.py:74-80 | The `is_file` filter keeps the positions of exactly the regular-file entries, in increasing order. |
| Folders.FileNames | main.py:74-80 | The mapped list holds one name per kept entry, in listing order: the names of the file entries and of nothing else. |
| Folders.FileNamesListsFiles | main.py:74-80 | Filtering a `scandir` of a folder lists every regular file of the folder exactly once. It lists no sub-folder. |
| Folders.ReadFoldersListsFiles | main.py:68-82 | `read_folders` returns duplicate-free lists of exactly the regular files of the source folder and of the replica folder. |
| Folders.NewFileSync | main.py:43-66 | A `FileSync` is built, holding the given paths, log and interval, if and only if both paths exist. Otherwise `NotADirectoryError("The locations does not exist.")` is raised. |
| Sync.SyncFile | main.py:92-103 | One source name raises exactly when it is not a source file, when the replica holds a folder there, or when it is listed in the replica but missing. Otherwise the replica entry is rewritten from the source unless the name is listed and the digests agree. The record is "already exists" exactly in that case and "copied" otherwise. |
| Sync.RemovalLog | main.py:105-108 | The removal records for a list of names: one "removed" record per name, record i naming name i. |
| Sync.StaleMembers | main.py:105-106 | The removal candidates are exactly the replica-list names missing from the source list. There are none exactly when every replica name is a source name. |
| Sync.SyncName | main.py:92-103 | The first loop's body for one name, opening and hashing both files block by block, does exactly what `SyncFile` defines. It raises in the same cases. |
| Sync.SourceStepEffect | main.py:92-103 | Processing one more source name keeps the closed form of the first loop: completion iff every name so far can be synced, one record per name, each name synced, everything else as before. |
| Sync.SourcePassEffect | main.py:92-103 | The first loop completes iff every name can be synced. It then logs one record per name in order, gives each name its synced file and leaves every other replica entry as it was. |
| Sync.RemoveStepEffect | main.py:105-108 | Processing one more replica name keeps the closed form of the second loop: completion iff every stale name so far was a replica file, a "removed" record for each in order after the earlier log, stale names deleted, everything else as before. |
| Sync.RemovePassEffect | main.py:105-108 | The second loop completes iff every stale name is a replica file. It then appends one "removed" record per stale name in replica-list order after the earlier log, deletes exactly those names and leaves every other entry as it was. |
| Sync.SourcePassRaisedIsFinal | main.py:92-103 | After an exception in the first loop, no further source name is processed. |
| Sync.RemovePassFromRaised | main.py:105-108 | After an exception in the first loop, the removal loop never runs. |
| Sync.RemovePassRaisedIsFinal | main.py:105-108 | After an exception in the removal loop, no further replica name is processed. |
| Sync.SourcePassFrame | main.py:92-103 | Whether or not the first loop raises, a name it has not reached is as it was, a replica folder is left alone, and it logs at most one record per name. |
| Sync.RemovePassFrame | main.py:105-108 | Whether or not the removal loop raises, it adds no name, and a source-list name, a name not yet reached and a folder all stay as they were. |
| Sync.ReconcileFrame | main.py:92-108 | Whether `content_sync` completes or raises, a name on neither list is as it was, every new replica name is a source-list name, and no replica folder changes. The changes made before an exception stay. |
| Sync.ReconcileRaises | main.py:92-108 | With duplicate-free lists, `content_sync` raises iff some listed name is not where or what the pass needs it to be. |
| Sync.ReconcileLog | main.py:92-108 | A completed pass logs one "copied"/"already exists" record per source name, in order, with "already exists" iff listed with an equal digest. After them come exactly one "removed" record per stale name, in replica-list order. |
| Sync.ReconcileReplica | main.py:92-108 | Afterwards every source name is a replica file with the source file's digest. It is rewritten unless the digests agreed, and an unchanged file keeps its bytes. Stale names are gone, and no name outside the two lists is added, changed or removed. |
| Sync.ReconcileConvergedIsNoOp | main.py:92-108 | On a replica that already mirrors the lists, the pass completes with zero copies and zero removals. The replica stays as it was and every record is "already exists". |
| Sync.ContentSync | main.py:84-108 | The pass as written, running `SyncName` on each source name and then removing each stale name, produces the reference result. For duplicate-free lists it raises iff the names are not ready. Otherwise it converges every source name by digest, removes every stale name and touches nothing else. |
| SyncLoop.CycleRaises | main.py:117-119 | On folders that `scandir` lists, a `read_folders` + `content_sync` cycle raises iff a source file faces a replica sub-folder of the same name. |
| SyncLoop.CycleConverges | main.py:117-119 | After a completed cycle, the replica's file names are exactly the source's, each with the source file's digest. No other name is added and replica sub-folders are untouched. |
| SyncLoop.MirroredCycleIsNoOp | main.py:117-119 | A cycle on a replica that already holds exactly the source's file names, each with the source file's digest, completes with zero copies and zero removals. It logs "already exists" for each source file in listing order and leaves the replica exactly as it was. |
| SyncLoop.CycleIdempotent | main.py:117-119 | A second cycle on the result of a completed one, with any fresh listings, copies and removes nothing, and it leaves the replica exactly as it was. |

## Left out

- MD5 internals (`hashlib`): the digest is the parameter `md5`. No collision freedom is assumed, so convergence is digest equality, not byte equality.
- Hashing.GetHash: the model keeps the absorbed bytes in `Hasher`, so it does not show the bounded memory of block-wise hashing. Only the blocks' sizes and order are stated.
- `initialize_logger` and the log sink: the log is the sequence of `Action` records. The message text, the timestamp/level format and the file handler are I/O.
- Folders.NewFileSync: when both paths exist, the constructor also opens the log file (`initialize_logger` through `logging.FileHandler`). That open and its errors, such as a log path in a missing folder, are not modelled, so the model builds a `FileSync` whenever both paths exist.
- `FileSync.sync`: the `while True` loop, `sleep(interval)`, the `KeyboardInterrupt` handler and `sys.exit(0)` are a non-terminating timing and signal loop. One iteration of its body is `SyncLoop.Cycle`.
- `main` and argparse: command-line plumbing.
- `scandir`, `open`, `shutil.copy2`, `os.remove`, `os.path.exists`: modelled as the listing parameter, `ReadFile`, `Copy`, `Remove` and the `pathExists` parameter.
- SyncLoop.CycleRaises: the raise condition is stated only for roots that `scandir` lists (the `Scans` requires). The errors of `scandir` itself are not modelled. These are `NotADirectoryError` when a root path names a regular file, which the `exists` test of `location_check` lets through, and `FileNotFoundError` when a root was removed after construction. The same holds for the other `SyncLoop` lemmas.
- Timestamps and permission bits that `copy2` copies, and the file handles the code never closes: file metadata is not part of the model.
- `SameFileError`, which `copy2` raises when a source file and its replica target are the same file (one folder given twice while a file changes between the two opens), symbolic links, permission errors and other OS errors: only missing entries and folders-where-files-are-expected are modelled as errors.
- The `FileSync` object holds the logger built at construction time. The model keeps only the log file path.

=== FILE: cycle.dfy ===
/**
  One iteration of the polling loop of `FileSync.sync` (main.py): list both folders with
  `read_folders`, then run `content_sync` on the two file lists. The sleep, the endless
  repetition and the interrupt handling around it are not modelled.
*/
module SyncLoop {

  import opened Hashing
  import opened Folders
  import opened Sync

  /** `content_sync(*read_folders())` on the folders `scandir` listed as given. */
  function Cycle(md5: Md5, source: Dir, replica: Dir, sourceScan: Listing, replicaScan: Listing): Run
  {
    var lists := ReadFolders(sourceScan, replicaScan);
    Reconcile(md5, source, replica, lists.0, lists.1)
  }

  /** A cycle on faithful listings raises exactly when a source file faces a replica folder of the same name. */
  lemma CycleRaises(md5: Md5, source: Dir, replica: Dir, sourceScan: Listing, replicaScan: Listing)
    requires Scans(sourceScan, source) && Scans(replicaScan, replica)
    ensures Cycle(md5, source, replica, sourceScan, replicaScan).status.Completed?
            <==> forall name | IsFile(source, name) :: name !in replica || replica[name].File?
  {
    var lists := ReadFolders(sourceScan, replicaScan);
    var sourceList, replicaList := lists.0, lists.1;
    ReadFoldersListsFiles(sourceScan, replicaScan, source, replica);
    ReconcileRaises(md5, source, replica, sourceList, replicaList);
    if forall name | IsFile(source, name) :: name !in replica || replica[name].File? {
      forall name | name in sourceList
        ensures CanSync(source, replica, replicaList, name)
      {
        assert IsFile(source, name);
      }
      assert AllReady(source, replica, sourceList, replicaList);
    } else {
      var name :| IsFile(source, name) && name in replica && replica[name].Folder?;
      assert name in sourceList && !CanSync(source, replica, replicaList, name);
    }
  }

  /**
    A completed cycle on faithful listings leaves the replica with exactly the source's
    file names, each with the source file's digest; it adds no other name and leaves the
    replica's folders as they were.
  */
  lemma CycleConverges(md5: Md5, source: Dir, replica: Dir, sourceScan: Listing, replicaScan: Listing)
    requires Scans(sourceScan, source) && Scans(replicaScan, replica)
    requires Cycle(md5, source, replica, sourceScan, replicaScan).status.Completed?
    ensures var replica' := Cycle(md5, source, replica, sourceScan, replicaScan).replica;
      && FileSet(replica') == FileSet(source)
      && (forall name | IsFile(source, name) :: IsFile(replica', name) && md5(replica'[name].data) == md5(source[name].data))
      && (forall name | name in replica' :: name in replica || IsFile(source, name))
      && (forall name | name in replica && replica[name].Folder? :: Agrees(replica', replica, name))
  {
    var lists := ReadFolders(sourceScan, replicaScan);
    var sourceList, replicaList := lists.0, lists.1;
    ReadFoldersListsFiles(sourceScan, replicaScan, source, replica);
    ReconcileRaises(md5, source, replica, sourceList, replicaList);
    ReconcileReplica(md5, source, replica, sourceList, replicaList);
    var replica' := Reconcile(md5, source, replica, sourceList, replicaList).replica;
    forall name | name in replica'
      ensures name in FileSet(replica') <==> name in FileSet(source)
      ensures name in replica || IsFile(source, name)
    {
      if name !in sourceList && name !in replicaList {
        assert Agrees(replica', replica, name);
      }
    }
    forall name | IsFile(source, name)
      ensures IsFile(replica', name) && md5(replica'[name].data) == md5(source[name].data)
    {
      assert name in sourceList;
    }
    forall name | name in replica && replica[name].Folder?
      ensures Agrees(replica', replica, name)
    {
      assert !CanSync(source, replica, replicaList, name) && !IsFile(replica, name);
    }
  }

  /** `replica` already mirrors `source`: the same file names, each with the source file's digest. */
  ghost predicate Mirrors(md5: Md5, source: Dir, replica: Dir)
  {
    && FileSet(replica) == FileSet(source)
    && forall name | IsFile(source, name) :: IsFile(replica, name) && md5(replica[name].data) == md5(source[name].data)
  }

  /**
    A cycle on faithful listings of a replica that already mirrors the source copies
    nothing and removes nothing: it completes, every record says the file already exists,
    and the replica is left exactly as it was.
  */
  lemma MirroredCycleIsNoOp(md5: Md5, source: Dir, replica: Dir, sourceScan: Listing, replicaScan: Listing)
    requires Scans(sourceScan, source) && Scans(replicaScan, replica)
    requires Mirrors(md5, source, replica)
    ensures var run := Cycle(md5, source, replica, sourceScan, replicaScan);
      && run.status.Completed?
      && run.replica == replica
      && |run.log| == |FileNames(sourceScan)|
      && forall i | 0 <= i < |run.log| :: run.log[i] == AlreadyExists(FileNames(sourceScan)[i])
  {
    var lists := ReadFolders(sourceScan, replicaScan);
    var sourceList, replicaList := lists.0, lists.1;
    ReadFoldersListsFiles(sourceScan, replicaScan, source, replica);
    forall name | name in sourceList
      ensures name in replicaList && IsFile(replica, name)
    {
      assert IsFile(source, name);
    }
    forall name | name in replicaList
      ensures name in sourceList
    {
      assert name in FileSet(replica);
    }
    ReconcileConvergedIsNoOp(md5, source, replica, sourceList, replicaList);
  }

  /**
    Running a second cycle on the outcome of a completed one, with any fresh listings,
    copies nothing and removes nothing: it completes, every record says the file already
    exists, and the replica is left exactly as it was.
  */
  lemma CycleIdempotent(md5: Md5, source: Dir, replica: Dir, sourceScan: Listing, replicaScan: Listing,
                        sourceScan2: Listing, replicaScan2: Listing)
    requires Scans(sourceScan, source) && Scans(replicaScan, replica)
    requires Cycle(md5, source, replica, sourceScan, replicaScan).status.Completed?
    requires Scans(sourceScan2, source)
    requires Scans(replicaScan2, Cycle(md5, source, replica, sourceScan, replicaScan).replica)
    ensures var first := Cycle(md5, source, replica, sourceScan, replicaScan);
      var second := Cycle(md5, source, first.replica, sourceScan2, replicaScan2);
      && second.status.Completed?
      && second.replica == first.replica
      && |second.log| == |FileNames(sourceScan2)|
      && forall i | 0 <= i < |second.log| :: second.log[i] == AlreadyExists(FileNames(sourceScan2)[i])
  {
    var first := Cycle(md5, source, replica, sourceScan, replicaScan);
    CycleConverges(md5, source, replica, sourceScan, replicaScan);
    MirroredCycleIsNoOp(md5, source, first.replica, sourceScan2, replicaScan2);
  }

}

=== FILE: folders.dfy ===
/**
  The folders `FileSync` works on, the listing `read_folders` takes of them, and the
  existence guard `location_check` puts around the construction of a `FileSync`.

  A folder is one level deep: a map from entry name to either a regular file with its
  bytes or a sub-folder (whose contents the code never looks at). The listing that
  `scandir` yields is a parameter; `Scans` states what `scandir` promises about it.
*/
module Folders {

  import opened Results
  import opened Hashing

  datatype Node = File(data: Bytes) | Folder

  type Dir = map<string, Node>

  /** What `DirEntry.is_file()` distinguishes. */
  datatype Kind = RegularFile | Directory

  datatype Entry = Entry(name: string, kind: Kind)

  type Listing = seq<Entry>

  function KindOf(node: Node): Kind
  {
    if node.File? then RegularFile else Directory
  }

  predicate IsFile(d: Dir, name: string)
  {
    name in d && d[name].File?
  }

  /** The names of the regular files of a folder. */
  function FileSet(d: Dir): set<string>
  {
    set name | name in d && IsFile(d, name)
  }

  predicate Distinct<T(==)>(s: seq<T>)
  {
    forall i, j | 0 <= i < j < |s| :: s[i] != s[j]
  }

  /** `names` lists each regular file of `d` exactly once, and nothing else. */
  predicate ListsFiles(names: seq<string>, d: Dir)
  {
    && Distinct(names)
    && (forall name | name in names :: IsFile(d, name))
    && (forall name | name in d && IsFile(d, name) :: name in names)
  }

  /** `listing` is a `scandir` of `d`: every entry once, each with its kind. */
  predicate Scans(listing: Listing, d: Dir)
  {
    && (forall i, j | 0 <= i < j < |listing| :: listing[i].name != listing[j].name)
    && (forall i | 0 <= i < |listing| :: listing[i].name in d && KindOf(d[listing[i].name]) == listing[i].kind)
    && (forall name | name in d :: exists i | 0 <= i < |listing| :: listing[i].name == name)
  }

  /**
    The positions of the regular-file entries of a listing, in increasing order: exactly
    the entries the `is_file` filter of `read_folders` keeps.
  */
  function FileIndices(listing: Listing): (idx: seq<nat>)
    ensures forall k | 0 <= k < |idx| :: idx[k] < |listing| && listing[idx[k]].kind == RegularFile
    ensures forall k, l | 0 <= k < l < |idx| :: idx[k] < idx[l]
    ensures forall i | 0 <= i < |listing| && listing[i].kind == RegularFile :: i in idx
  {
    if listing == [] then []
    else
      var init := listing[..|listing| - 1];
      FileIndices(init) + (if listing[|listing| - 1].kind == RegularFile then [|listing| - 1] else [])
  }

  /**
    The names `read_folders` returns for one listing: the names of the RegularFile entries
    and of nothing else, in listing order.
  */
  function FileNames(listing: Listing): (names: seq<string>)
    ensures |names| == |FileIndices(listing)|
    ensures forall k | 0 <= k < |names| :: names[k] == listing[FileIndices(listing)[k]].name
  {
    if listing == [] then []
    else
      var init, last := listing[..|listing| - 1], listing[|listing| - 1];
      FileNames(init) + (if last.kind == RegularFile then [last.name] else [])
  }

  /** `FileSync.read_folders`: the file names of the source listing and of the replica listing. */
  function ReadFolders(sourceScan: Listing, replicaScan: Listing): (seq<string>, seq<string>)
  {
    (FileNames(sourceScan), FileNames(replicaScan))
  }

  /** Distinct entry names give distinct file names. */
  lemma FileNamesDistinct(listing: Listing, d: Dir)
    requires Scans(listing, d)
    ensures Distinct(FileNames(listing))
  {
    var names, idx := FileNames(listing), FileIndices(listing);
    forall k, l | 0 <= k < l < |names|
      ensures names[k] != names[l]
    {
      assert idx[k] < idx[l] < |listing|;
      assert names[k] == listing[idx[k]].name && names[l] == listing[idx[l]].name;
    }
  }

  lemma FileNamesAreFiles(listing: Listing, d: Dir, name: string)
    requires Scans(listing, d)
    requires name in FileNames(listing)
    ensures IsFile(d, name)
  {
    var names, idx := FileNames(listing), FileIndices(listing);
    var k :| 0 <= k < |names| && names[k] == name;
    var i := idx[k];
    assert listing[i].kind == RegularFile && listing[i].name == name;
    assert KindOf(d[name]) == RegularFile;
  }

  lemma FilesAreFileNames(listing: Listing, d: Dir, name: string)
    requires Scans(listing, d)
    requires IsFile(d, name)
    ensures name in FileNames(listing)
  {
    var names, idx := FileNames(listing), FileIndices(listing);
    var i :| 0 <= i < |listing| && listing[i].name == name;
    assert KindOf(d[name]) == listing[i].kind;
    assert i in idx;
    var k :| 0 <= k < |idx| && idx[k] == i;
    assert names[k] == name;
  }

  /** Filtering a `scandir` of a folder lists the folder's regular files, each exactly once. */
  lemma FileNamesListsFiles(listing: Listing, d: Dir)
    requires Scans(listing, d)
    ensures ListsFiles(FileNames(listing), d)
  {
    FileNamesDistinct(listing, d);
    forall name | name in FileNames(listing)
      ensures IsFile(d, name)
    {
      FileNamesAreFiles(listing, d, name);
    }
    forall name | name in d && IsFile(d, name)
      ensures name in FileNames(listing)
    {
      FilesAreFileNames(listing, d, name);
    }
  }

  /** `read_folders` on two `scandir`s lists exactly the regular files of each folder. */
  lemma ReadFoldersListsFiles(sourceScan: Listing, replicaScan: Listing, source: Dir, replica: Dir)
    requires Scans(sourceScan, source) && Scans(replicaScan, replica)
    ensures ListsFiles(ReadFolders(sourceScan, replicaScan).0, source)
    ensures ListsFiles(ReadFolders(sourceScan, replicaScan).1, replica)
  {
    FileNamesListsFiles(sourceScan, source);
    FileNamesListsFiles(replicaScan, replica);
  }

  /** A `FileSync` object: the two folder paths, the log file path and the polling interval. */
  datatype FileSync = FileSync(source: string, replica: string, log: string, interval: int)

  datatype LocationError = NotADirectoryError(message: string)

  const LocationMessage: string := "The locations does not exist."

  /**
    `FileSync(...)` as wrapped by `location_check`: the object is built only when both
    paths exist; otherwise `NotADirectoryError` with the fixed message is raised.
    `pathExists` stands for `os.path.exists`.
  */
  function NewFileSync(pathExists: string -> bool, source: string, replica: string, log: string, interval: int)
    : (r: Result<FileSync, LocationError>)
    ensures r.Ok? <==> pathExists(source) && pathExists(replica)
    ensures r.Ok? ==> r.value.source == source && r.value.replica == replica
    ensures r.Ok? ==> r.value.log == log && r.value.interval == interval
    ensures r.Err? ==> r.error == NotADirectoryError(LocationMessage)
  {
    if pathExists(source) && pathExists(replica) then Ok(FileSync(source, replica, log, interval))
    else Err(NotADirectoryError(LocationMessage))
  }

}

=== FILE: hashing.dfy ===
/**
  The streaming content digest of `get_hash` (main.py): a file is read in blocks of at
  most 4096 bytes until an empty read, and every block is fed to an incremental MD5.

  MD5 itself is not modelled. The one-shot digest is a parameter `md5` of every member
  that needs it, and nothing is assumed about it (in particular not collision freedom).
  The incremental hasher is modelled by the message it has absorbed so far, which is
  what the streaming interface of a Merkle-Damgard hash promises: the final digest of a
  sequence of updates is the digest of their concatenation.
*/
module Hashing {

  newtype byte = x: int | 0 <= x < 256

  type Bytes = seq<byte>

  /** `hexdigest()` text. */
  type HexDigest = string

  /** The one-shot digest of a whole message. */
  type Md5 = Bytes -> HexDigest

  /** The block size `file.read` is called with. */
  const BlockSize: nat := 4096

  /** `hashlib.md5()` after some `update` calls, identified by the bytes fed to it. */
  datatype Hasher = Hasher(absorbed: Bytes)

  function NewHasher(): Hasher
  {
    Hasher([])
  }

  function Update(h: Hasher, block: Bytes): Hasher
  {
    Hasher(h.absorbed + block)
  }

  function Finalize(md5: Md5, h: Hasher): HexDigest
  {
    md5(h.absorbed)
  }

  /** The concatenation of a sequence of blocks. */
  function Flatten(blocks: seq<Bytes>): Bytes
  {
    if blocks == [] then []
    else Flatten(blocks[..|blocks| - 1]) + blocks[|blocks| - 1]
  }

  /** Feeding the blocks to `h` one `update` at a time, first block first. */
  function Absorb(h: Hasher, blocks: seq<Bytes>): Hasher
  {
    if blocks == [] then h
    else Update(Absorb(h, blocks[..|blocks| - 1]), blocks[|blocks| - 1])
  }

  /** Updating block by block absorbs exactly the concatenation of the blocks. */
  lemma {:induction false} AbsorbIsConcatenation(h: Hasher, blocks: seq<Bytes>)
    ensures Absorb(h, blocks).absorbed == h.absorbed + Flatten(blocks)
  {
    if blocks != [] {
      var init, last := blocks[..|blocks| - 1], blocks[|blocks| - 1];
      AbsorbIsConcatenation(h, init);
      calc {
        Absorb(h, blocks).absorbed;
        Absorb(h, init).absorbed + last;
        (h.absorbed + Flatten(init)) + last;
        h.absorbed + (Flatten(init) + last);
        h.absorbed + Flatten(blocks);
      }
    }
  }

  /**
    The streamed digest depends on the content only: two chunkings of the same bytes give
    the same digest, and that digest is the one-shot digest of the content.
  */
  lemma ChunkingIrrelevant(md5: Md5, blocks1: seq<Bytes>, blocks2: seq<Bytes>)
    requires Flatten(blocks1) == Flatten(blocks2)
    ensures Finalize(md5, Absorb(NewHasher(), blocks1)) == md5(Flatten(blocks1))
    ensures Finalize(md5, Absorb(NewHasher(), blocks1)) == Finalize(md5, Absorb(NewHasher(), blocks2))
  {
    AbsorbIsConcatenation(NewHasher(), blocks1);
    AbsorbIsConcatenation(NewHasher(), blocks2);
    assert NewHasher().absorbed + Flatten(blocks1) == Flatten(blocks1);
  }

  /**
    A binary file object opened for reading: its content and the current offset. A file
    object reached by reading never has its offset past the end.
  */
  datatype Reader = Reader(content: Bytes, pos: nat)

  /** What one `read` returns (`block`), and the file object after it (`rest`). */
  datatype Chunk = Chunk(block: Bytes, rest: Reader)

  /**
    `file.read(n)` on a regular file: the next bytes from the offset, at most `n` of them,
    fewer only when the end of the file is reached.
  */
  function ReadBlock(f: Reader, n: nat): (r: Chunk)
    requires f.pos <= |f.content|
    ensures r.rest.content == f.content
    ensures f.pos <= r.rest.pos <= |f.content| && r.block == f.content[f.pos..r.rest.pos]
    ensures |r.block| <= n
    ensures |r.block| < n ==> r.rest.pos == |f.content|
  {
    var end := if f.pos + n <= |f.content| then f.pos + n else |f.content|;
    Chunk(f.content[f.pos..end], Reader(f.content, end))
  }

  /**
    `get_hash(file)`: reads `BlockSize` blocks until the empty read and returns the digest
    of everything from the current offset to the end. The ghost `blocks` are the blocks fed
    to the hasher, in order: none is empty, none is longer than `BlockSize`, all but the
    last are full, and together they are exactly the rest of the file.
  */
  method GetHash(md5: Md5, file: Reader) returns (digest: HexDigest, ghost blocks: seq<Bytes>)
    requires file.pos <= |file.content|
    ensures digest == Finalize(md5, Absorb(NewHasher(), blocks))
    ensures Flatten(blocks) == file.content[file.pos..]
    ensures forall i | 0 <= i < |blocks| :: 0 < |blocks[i]| <= BlockSize
    ensures forall i | 0 <= i < |blocks| - 1 :: |blocks[i]| == BlockSize
    ensures digest == md5(file.content[file.pos..])
  {
    var hasher := NewHasher();
    var f := file;
    blocks := [];
    while true
      invariant f.content == file.content && file.pos <= f.pos <= |f.content|
      invariant Flatten(blocks) == file.content[file.pos..f.pos]
      invariant hasher == Absorb(NewHasher(), blocks)
      invariant forall i | 0 <= i < |blocks| :: 0 < |blocks[i]| <= BlockSize
      invariant forall i | 0 <= i < |blocks| - 1 :: |blocks[i]| == BlockSize
      invariant blocks != [] && |blocks[|blocks| - 1]| < BlockSize ==> f.pos == |f.content|
      decreases |f.content| - f.pos
    {
      var chunk := ReadBlock(f, BlockSize);
      var block := chunk.block;
      f := chunk.rest;
      if block == [] {
        break;
      }
      hasher := Update(hasher, block);
      assert (blocks + [block])[..|blocks|] == blocks;
      blocks := blocks + [block];
    }
    assert f.pos == |file.content|;
    AbsorbIsConcatenation(NewHasher(), blocks);
    assert hasher.absorbed == file.content[file.pos..];
    digest := Finalize(md5, hasher);
  }

}

=== FILE: results.dfy ===
/** The value-or-error type used where the Python code raises an exception. */
module Results {

  datatype Result<+T, +E> = Ok(value: T) | Err(error: E)

}

=== FILE: sync.dfy ===
/**
  `FileSync.content_sync` (main.py): one pass that mirrors the regular files of the source
  folder into the replica folder.

  First, for every name of the source list in order: a name missing from the replica list
  is copied; a name on both lists is copied over when the two digests differ and is left
  alone (logged as already present) when they agree. Then, for every name of the replica
  list in order that is not on the source list, the replica file is removed.

  `Reconcile` is the reference definition of that pass as a fold over the two lists, and
  `ContentSync` is the pass written as main.py writes it, hashing through `GetHash`.
  A failing `open`, `copy2` or `remove` stops the pass with the error Python raises; the
  replica then keeps the changes made so far.
*/
module Sync {

  import opened Results
  import opened Hashing
  import opened Folders

  datatype Side = SourceSide | ReplicaSide

  /** The `OSError`s the pass can raise: a missing path, or a folder where a file is expected. */
  datatype IoError = FileNotFound(side: Side, name: string) | IsADirectory(side: Side, name: string)

  /** One log record: "copied to", "already exists in", "removed from". */
  datatype Action = Copied(name: string) | AlreadyExists(name: string) | Removed(name: string)

  datatype Status = Completed | Raised(error: IoError)

  /** The replica folder and the log after (part of) a pass, and how the pass ended. */
  datatype Run = Run(replica: Dir, log: seq<Action>, status: Status)

  /** `open(join(root, name), "rb")` read to the end. */
  function ReadFile(d: Dir, side: Side, name: string): Result<Bytes, IoError>
  {
    if name !in d then Err(FileNotFound(side, name))
    else if d[name].Folder? then Err(IsADirectory(side, name))
    else Ok(d[name].data)
  }

  /**
    `shutil.copy2` of the source file `name` into the replica folder: the source must be a
    readable regular file, and the replica must not hold a folder under that name.
  */
  function Copy(source: Dir, replica: Dir, name: string): Result<Dir, IoError>
  {
    match ReadFile(source, SourceSide, name)
    case Err(e) => Err(e)
    case Ok(data) =>
      if name in replica && replica[name].Folder? then Err(IsADirectory(ReplicaSide, name))
      else Ok(replica[name := File(data)])
  }

  /** `os.remove` of the replica entry `name`, which must be a regular file. */
  function Remove(replica: Dir, name: string): Result<Dir, IoError>
  {
    if name !in replica then Err(FileNotFound(ReplicaSide, name))
    else if replica[name].Folder? then Err(IsADirectory(ReplicaSide, name))
    else Ok(replica - {name})
  }

  /** The source name is on the replica list and both files have the same digest. */
  predicate Unchanged(md5: Md5, source: Dir, replica: Dir, replicaList: seq<string>, name: string)
  {
    && name in replicaList
    && IsFile(source, name)
    && IsFile(replica, name)
    && md5(source[name].data) == md5(replica[name].data)
  }

  /** Processing the source name raises nothing. */
  predicate CanSync(source: Dir, replica: Dir, replicaList: seq<string>, name: string)
  {
    && IsFile(source, name)
    && (name in replica ==> replica[name].File?)
    && (name in replicaList ==> name in replica)
  }

  /** The log record the source name gets. */
  function ActionFor(md5: Md5, source: Dir, replica: Dir, replicaList: seq<string>, name: string): Action
  {
    if Unchanged(md5, source, replica, replicaList, name) then AlreadyExists(name) else Copied(name)
  }

  /** The replica entry the source name ends up with. */
  function Synced(md5: Md5, source: Dir, replica: Dir, replicaList: seq<string>, name: string): Node
    requires IsFile(source, name)
  {
    if Unchanged(md5, source, replica, replicaList, name) then replica[name] else source[name]
  }

  /**
    The body of the first loop for one source name. It raises exactly when the name
    cannot be synced; otherwise the replica entry is written unless the digests already
    agree, and one "copied" or "already exists" record is produced.
  */
  function SyncFile(md5: Md5, source: Dir, replica: Dir, replicaList: seq<string>, name: string)
    : (r: Result<(Dir, Action), IoError>)
    ensures r.Ok? <==> CanSync(source, replica, replicaList, name)
    ensures r.Ok? ==> r.value.1 == ActionFor(md5, source, replica, replicaList, name)
    ensures r.Ok? && Unchanged(md5, source, replica, replicaList, name) ==> r.value.0 == replica
    ensures r.Ok? && !Unchanged(md5, source, replica, replicaList, name) ==>
              r.value.0 == replica[name := source[name]]
  {
    if name !in replicaList then
      match Copy(source, replica, name)
      case Err(e) => Err(e)
      case Ok(copied) => Ok((copied, Copied(name)))
    else
      match ReadFile(source, SourceSide, name)
      case Err(e) => Err(e)
      case Ok(sourceData) =>
        match ReadFile(replica, ReplicaSide, name)
        case Err(e) => Err(e)
        case Ok(replicaData) =>
          if md5(sourceData) != md5(replicaData) then
            match Copy(source, replica, name)
            case Err(e) => Err(e)
            case Ok(copied) => Ok((copied, Copied(name)))
          else
            Ok((replica, AlreadyExists(name)))
  }

  function SourceStep(md5: Md5, source: Dir, replicaList: seq<string>, run: Run, name: string): Run
  {
    if run.status.Raised? then run
    else match SyncFile(md5, source, run.replica, replicaList, name)
      case Err(e) => Run(run.replica, run.log, Raised(e))
      case Ok((replica', action)) => Run(replica', run.log + [action], Completed)
  }

  /** The first loop over `names` (a prefix of the source list), from a fresh log. */
  function SourcePass(md5: Md5, source: Dir, replica: Dir, replicaList: seq<string>, names: seq<string>): Run
  {
    if names == [] then Run(replica, [], Completed)
    else
      SourceStep(md5, source, replicaList,
                 SourcePass(md5, source, replica, replicaList, names[..|names| - 1]), names[|names| - 1])
  }

  function RemoveStep(sourceList: seq<string>, run: Run, name: string): Run
  {
    if run.status.Raised? || name in sourceList then run
    else match Remove(run.replica, name)
      case Err(e) => Run(run.replica, run.log, Raised(e))
      case Ok(replica') => Run(replica', run.log + [Removed(name)], Completed)
  }

  /** The second loop over `names` (a prefix of the replica list), continuing `start`. */
  function RemovePass(sourceList: seq<string>, start: Run, names: seq<string>): Run
  {
    if names == [] then start
    else RemoveStep(sourceList, RemovePass(sourceList, start, names[..|names| - 1]), names[|names| - 1])
  }

  /** The whole of `content_sync(sourceList, replicaList)`. */
  function Reconcile(md5: Md5, source: Dir, replica: Dir, sourceList: seq<string>, replicaList: seq<string>): Run
  {
    RemovePass(sourceList, SourcePass(md5, source, replica, replicaList, sourceList), replicaList)
  }

  /** The replica-list names not on the source list, in replica-list order. */
  function Stale(sourceList: seq<string>, names: seq<string>): seq<string>
  {
    if names == [] then []
    else
      var init, last := names[..|names| - 1], names[|names| - 1];
      Stale(sourceList, init) + (if last !in sourceList then [last] else [])
  }

  /** One "removed" record per name, in order. */
  function RemovalLog(names: seq<string>): (log: seq<Action>)
    ensures |log| == |names|
    ensures forall i | 0 <= i < |names| :: log[i] == Removed(names[i])
  {
    if names == [] then []
    else RemovalLog(names[..|names| - 1]) + [Removed(names[|names| - 1])]
  }

  /**
    The stale names are exactly the names missing from the source list, and there are
    none exactly when every name is on the source list.
  */
  lemma {:induction false} StaleMembers(sourceList: seq<string>, names: seq<string>)
    ensures forall name :: name in Stale(sourceList, names) <==> name in names && name !in sourceList
    ensures Stale(sourceList, names) == [] <==> forall name | name in names :: name in sourceList
  {
    if names != [] {
      var init, last := names[..|names| - 1], names[|names| - 1];
      StaleMembers(sourceList, init);
      assert forall name :: name in names <==> name in init || name == last;
    }
  }

  /** Two folders hold the same entry (or both none) under `name`. */
  predicate Agrees(a: Dir, b: Dir, name: string)
  {
    (name in a <==> name in b) && (name in a && name in b ==> a[name] == b[name])
  }

  /** The pass raises nothing: every name it touches is where and what it must be. */
  predicate AllReady(source: Dir, replica: Dir, sourceList: seq<string>, replicaList: seq<string>)
  {
    && (forall name | name in sourceList :: CanSync(source, replica, replicaList, name))
    && (forall name | name in replicaList && name !in sourceList :: IsFile(replica, name))
  }

  lemma DistinctInit(names: seq<string>)
    requires Distinct(names) && names != []
    ensures Distinct(names[..|names| - 1])
    ensures names[|names| - 1] !in names[..|names| - 1]
  {
  }

  /**
    The closed form of the first loop over distinct `names`, as `run` reaches it: it
    completes exactly when every name can be synced; then it has logged one record per
    name in order, every listed name holds its synced entry, and every other replica entry
    is as it was.
  */
  ghost predicate SourcePassed(md5: Md5, source: Dir, replica: Dir, replicaList: seq<string>, names: seq<string>, run: Run)
  {
    && (run.status.Completed? <==> forall name | name in names :: CanSync(source, replica, replicaList, name))
    && (run.status.Completed? ==>
          && |run.log| == |names|
          && (forall i | 0 <= i < |names| :: run.log[i] == ActionFor(md5, source, replica, replicaList, names[i]))
          && (forall name | name in names ::
                IsFile(source, name) && name in run.replica
                && run.replica[name] == Synced(md5, source, replica, replicaList, name))
          && (forall name | name !in names :: Agrees(run.replica, replica, name)))
  }

  /** One more source name keeps the closed form of the first loop. */
  lemma SourceStepEffect(md5: Md5, source: Dir, replica: Dir, replicaList: seq<string>,
                         init: seq<string>, last: string, prev: Run)
    requires last !in init
    requires SourcePassed(md5, source, replica, replicaList, init, prev)
    ensures SourcePassed(md5, source, replica, replicaList, init + [last], SourceStep(md5, source, replicaList, prev, last))
  {
    var names := init + [last];
    assert forall name :: name in names <==> name in init || name == last;
    if prev.status.Completed? {
      assert Agrees(prev.replica, replica, last);
      assert CanSync(source, prev.replica, replicaList, last) == CanSync(source, replica, replicaList, last);
      assert Unchanged(md5, source, prev.replica, replicaList, last) == Unchanged(md5, source, replica, replicaList, last);
    }
  }

  /** The first loop over distinct names reaches its closed form. */
  lemma {:induction false} SourcePassEffect(md5: Md5, source: Dir, replica: Dir, replicaList: seq<string>, names: seq<string>)
    requires Distinct(names)
    ensures SourcePassed(md5, source, replica, replicaList, names, SourcePass(md5, source, replica, replicaList, names))
  {
    if names != [] {
      var init, last := names[..|names| - 1], names[|names| - 1];
      DistinctInit(names);
      SourcePassEffect(md5, source, replica, replicaList, init);
      SourceStepEffect(md5, source, replica, replicaList, init, last, SourcePass(md5, source, replica, replicaList, init));
      assert init + [last] == names;
    }
  }

  /**
    The closed form of the second loop over distinct `names`, continuing the completed run
    `start`, as `run` reaches it: it completes exactly when every stale name is a replica
    file; then it has appended one "removed" record per stale name in order, removed
    exactly the stale names, and left every other entry alone.
  */
  ghost predicate RemovePassed(sourceList: seq<string>, start: Run, names: seq<string>, run: Run)
  {
    && (run.status.Completed? <==> forall name | name in names && name !in sourceList :: IsFile(start.replica, name))
    && (run.status.Completed? ==>
          && run.log == start.log + RemovalLog(Stale(sourceList, names))
          && (forall name | name in names && name !in sourceList :: name !in run.replica)
          && (forall name | name in sourceList || name !in names :: Agrees(run.replica, start.replica, name)))
  }

  /** One more replica name keeps the closed form of the second loop. */
  lemma RemoveStepEffect(sourceList: seq<string>, start: Run, init: seq<string>, last: string, prev: Run)
    requires last !in init && start.status.Completed?
    requires RemovePassed(sourceList, start, init, prev)
    ensures RemovePassed(sourceList, start, init + [last], RemoveStep(sourceList, prev, last))
  {
  }

  /** The second loop over distinct names, from a completed run, reaches its closed form. */
  lemma {:induction false} RemovePassEffect(sourceList: seq<string>, start: Run, names: seq<string>)
    requires Distinct(names) && start.status.Completed?
    ensures RemovePassed(sourceList, start, names, RemovePass(sourceList, start, names))
  {
    if names != [] {
      var init, last := names[..|names| - 1], names[|names| - 1];
      DistinctInit(names);
      RemovePassEffect(sourceList, start, init);
      RemoveStepEffect(sourceList, start, init, last, RemovePass(sourceList, start, init));
      assert init + [last] == names;
    }
  }

  /** Once a step raises, the rest of the first loop never runs. */
  lemma {:induction false} SourcePassRaisedIsFinal(md5: Md5, source: Dir, replica: Dir, replicaList: seq<string>, names: seq<string>, k: nat)
    requires k <= |names|
    requires SourcePass(md5, source, replica, replicaList, names[..k]).status.Raised?
    ensures SourcePass(md5, source, replica, replicaList, names) == SourcePass(md5, source, replica, replicaList, names[..k])
    decreases |names| - k
  {
    if k < |names| {
      var next := names[..k + 1];
      assert next[..|next| - 1] == names[..k];
      SourcePassRaisedIsFinal(md5, source, replica, replicaList, names, k + 1);
    } else {
      assert names[..k] == names;
    }
  }

  /** A second loop started from a run that raised leaves it as it is. */
  lemma {:induction false} RemovePassFromRaised(sourceList: seq<string>, start: Run, names: seq<string>)
    ensures start.status.Raised? ==> RemovePass(sourceList, start, names) == start
  {
    if names != [] {
      RemovePassFromRaised(sourceList, start, names[..|names| - 1]);
    }
  }

  /** Once a step raises, the rest of the second loop never runs. */
  lemma {:induction false} RemovePassRaisedIsFinal(sourceList: seq<string>, start: Run, names: seq<string>, k: nat)
    requires k <= |names|
    requires RemovePass(sourceList, start, names[..k]).status.Raised?
    ensures RemovePass(sourceList, start, names) == RemovePass(sourceList, start, names[..k])
    decreases |names| - k
  {
    if k < |names| {
      var next := names[..k + 1];
      assert next[..|next| - 1] == names[..k];
      RemovePassRaisedIsFinal(sourceList, start, names, k + 1);
    } else {
      assert names[..k] == names;
    }
  }

  /**
    Whatever the first loop meets, raised or not: a name it has not reached is as it was,
    a folder of the replica is left alone, and at most one record per name is logged.
  */
  lemma {:induction false} SourcePassFrame(md5: Md5, source: Dir, replica: Dir, replicaList: seq<string>, names: seq<string>)
    ensures var run := SourcePass(md5, source, replica, replicaList, names);
      && |run.log| <= |names|
      && (forall name | name !in names :: Agrees(run.replica, replica, name))
      && (forall name | name in replica && replica[name].Folder? :: Agrees(run.replica, replica, name))
  {
    if names != [] {
      var init, last := names[..|names| - 1], names[|names| - 1];
      SourcePassFrame(md5, source, replica, replicaList, init);
      assert forall name :: name in names <==> name in init || name == last;
    }
  }

  /**
    Whatever the removal loop meets, raised or not: it adds no name, leaves every name on
    the source list or not yet reached as it was, and leaves every folder alone.
  */
  lemma {:induction false} RemovePassFrame(sourceList: seq<string>, start: Run, names: seq<string>)
    ensures var run := RemovePass(sourceList, start, names);
      && (forall name | name in run.replica :: name in start.replica)
      && (forall name | name in sourceList || name !in names :: Agrees(run.replica, start.replica, name))
      && (forall name | name in start.replica && start.replica[name].Folder? :: Agrees(run.replica, start.replica, name))
  {
    if names != [] {
      var init, last := names[..|names| - 1], names[|names| - 1];
      RemovePassFrame(sourceList, start, init);
      assert forall name :: name in names <==> name in init || name == last;
    }
  }

  /**
    `content_sync` changes only what it lists, whether it completes or raises: a name on
    neither list is as it was, a new replica name is a source-list name, and a replica
    folder is never changed. An exception keeps the changes made before it.
  */
  lemma ReconcileFrame(md5: Md5, source: Dir, replica: Dir, sourceList: seq<string>, replicaList: seq<string>)
    ensures var replica' := Reconcile(md5, source, replica, sourceList, replicaList).replica;
      && (forall name | name !in sourceList && name !in replicaList :: Agrees(replica', replica, name))
      && (forall name | name in replica' && name !in replica :: name in sourceList)
      && (forall name | name in replica && replica[name].Folder? :: Agrees(replica', replica, name))
  {
    var start := SourcePass(md5, source, replica, replicaList, sourceList);
    SourcePassFrame(md5, source, replica, replicaList, sourceList);
    RemovePassFrame(sourceList, start, replicaList);
  }

  /**
    `content_sync` on duplicate-free lists (as `read_folders` produces) raises exactly
    when some listed name is not where or what the pass needs it to be.
  */
  lemma ReconcileRaises(md5: Md5, source: Dir, replica: Dir, sourceList: seq<string>, replicaList: seq<string>)
    requires Distinct(sourceList) && Distinct(replicaList)
    ensures Reconcile(md5, source, replica, sourceList, replicaList).status.Completed?
            <==> AllReady(source, replica, sourceList, replicaList)
  {
    var start := SourcePass(md5, source, replica, replicaList, sourceList);
    SourcePassEffect(md5, source, replica, replicaList, sourceList);
    if start.status.Completed? {
      RemovePassEffect(sourceList, start, replicaList);
      forall name | name in replicaList && name !in sourceList
        ensures IsFile(start.replica, name) == IsFile(replica, name)
      {
        assert Agrees(start.replica, replica, name);
      }
    } else {
      RemovePassFromRaised(sourceList, start, replicaList);
    }
  }

  /**
    The log of a completed `content_sync` on duplicate-free lists: one "copied" or
    "already exists" record per source name, in order, and "already exists" exactly when
    the digests agreed; after all of them, one "removed" record per stale name, in order.
  */
  lemma ReconcileLog(md5: Md5, source: Dir, replica: Dir, sourceList: seq<string>, replicaList: seq<string>)
    requires Distinct(sourceList) && Distinct(replicaList)
    requires Reconcile(md5, source, replica, sourceList, replicaList).status.Completed?
    ensures var log := Reconcile(md5, source, replica, sourceList, replicaList).log;
      var stale := Stale(sourceList, replicaList);
      && |log| == |sourceList| + |stale|
      && (forall i | 0 <= i < |sourceList| :: log[i] == ActionFor(md5, source, replica, replicaList, sourceList[i]))
      && log[|sourceList|..] == RemovalLog(stale)
  {
    var start := SourcePass(md5, source, replica, replicaList, sourceList);
    RemovePassFromRaised(sourceList, start, replicaList);
    SourcePassLog(md5, source, replica, replicaList, sourceList);
    RemovePassEffect(sourceList, start, replicaList);
    var log := RemovePass(sourceList, start, replicaList).log;
    assert log[|start.log|..] == RemovalLog(Stale(sourceList, replicaList));
  }

  /** The log part of `SourcePassEffect`. */
  lemma SourcePassLog(md5: Md5, source: Dir, replica: Dir, replicaList: seq<string>, names: seq<string>)
    requires Distinct(names)
    requires SourcePass(md5, source, replica, replicaList, names).status.Completed?
    ensures var log := SourcePass(md5, source, replica, replicaList, names).log;
      && |log| == |names|
      && forall i | 0 <= i < |names| :: log[i] == ActionFor(md5, source, replica, replicaList, names[i])
  {
    SourcePassEffect(md5, source, replica, replicaList, names);
  }

  /**
    The replica after a completed `content_sync` on duplicate-free lists: every source name
    holds a file with the source file's digest, rewritten from the source unless the
    digests already agreed; every stale name is gone; no other entry is added, changed or
    removed.
  */
  lemma ReconcileReplica(md5: Md5, source: Dir, replica: Dir, sourceList: seq<string>, replicaList: seq<string>)
    requires Distinct(sourceList) && Distinct(replicaList)
    requires Reconcile(md5, source, replica, sourceList, replicaList).status.Completed?
    ensures var replica' := Reconcile(md5, source, replica, sourceList, replicaList).replica;
      && (forall name | name in sourceList ::
            IsFile(source, name) && IsFile(replica', name)
            && replica'[name] == Synced(md5, source, replica, replicaList, name)
            && md5(replica'[name].data) == md5(source[name].data))
      && (forall name | name in replicaList && name !in sourceList :: name !in replica')
      && (forall name | name !in sourceList && name !in replicaList :: Agrees(replica', replica, name))
  {
    var start := SourcePass(md5, source, replica, replicaList, sourceList);
    RemovePassFromRaised(sourceList, start, replicaList);
    SourcePassEffect(md5, source, replica, replicaList, sourceList);
    RemovePassEffect(sourceList, start, replicaList);
    var run := RemovePass(sourceList, start, replicaList);
    forall name | name in sourceList
      ensures run.replica[name] == start.replica[name]
    {
      assert Agrees(run.replica, start.replica, name);
    }
  }

  /**
    A pass over a replica that already mirrors the lists (both lists name the same files,
    and each pair of files has the same digest) writes nothing and removes nothing: it
    completes, leaves the replica as it is, and logs "already exists" for every name.
  */
  lemma ReconcileConvergedIsNoOp(md5: Md5, source: Dir, replica: Dir, sourceList: seq<string>, replicaList: seq<string>)
    requires Distinct(sourceList) && Distinct(replicaList)
    requires forall name | name in sourceList ::
               && name in replicaList && IsFile(source, name) && IsFile(replica, name)
               && md5(replica[name].data) == md5(source[name].data)
    requires forall name | name in replicaList :: name in sourceList
    ensures var run := Reconcile(md5, source, replica, sourceList, replicaList);
      && run.status.Completed?
      && run.replica == replica
      && |run.log| == |sourceList|
      && forall i | 0 <= i < |run.log| :: run.log[i] == AlreadyExists(sourceList[i])
  {
    ReconcileRaises(md5, source, replica, sourceList, replicaList);
    StaleMembers(sourceList, replicaList);
    var run := Reconcile(md5, source, replica, sourceList, replicaList);
    assert AllReady(source, replica, sourceList, replicaList);
    ReconcileLog(md5, source, replica, sourceList, replicaList);
    ReconcileReplica(md5, source, replica, sourceList, replicaList);
    forall name | name in run.replica || name in replica
      ensures name in run.replica && name in replica && run.replica[name] == replica[name]
    {
      if name !in sourceList {
        assert Agrees(run.replica, replica, name);
      }
    }
  }

  /**
    The body of the first loop of `content_sync` for one source name, as written: a name
    missing from the replica list is copied; otherwise both files are opened and hashed
    block by block, and the source file is copied over when the digests differ. It does
    what `SyncFile` defines.
  */
  method SyncName(md5: Md5, source: Dir, replica: Dir, replicaList: seq<string>, name: string)
    returns (result: Result<(Dir, Action), IoError>)
    ensures result == SyncFile(md5, source, replica, replicaList, name)
    ensures result.Ok? <==> CanSync(source, replica, replicaList, name)
  {
    if name !in replicaList {
      var copied := Copy(source, replica, name);
      if copied.Err? {
        return Err(copied.error);
      }
      return Ok((copied.value, Copied(name)));
    }
    var sourceFile := ReadFile(source, SourceSide, name);
    if sourceFile.Err? {
      return Err(sourceFile.error);
    }
    var sourceDigest;
    ghost var sourceBlocks;
    sourceDigest, sourceBlocks := GetHash(md5, Reader(sourceFile.value, 0));
    var replicaFile := ReadFile(replica, ReplicaSide, name);
    if replicaFile.Err? {
      return Err(replicaFile.error);
    }
    var replicaDigest;
    ghost var replicaBlocks;
    replicaDigest, replicaBlocks := GetHash(md5, Reader(replicaFile.value, 0));
    assert sourceFile.value[0..] == sourceFile.value && replicaFile.value[0..] == replicaFile.value;
    if sourceDigest != replicaDigest {
      var copied := Copy(source, replica, name);
      if copied.Err? {
        return Err(copied.error);
      }
      return Ok((copied.value, Copied(name)));
    }
    return Ok((replica, AlreadyExists(name)));
  }

  /**
    `content_sync(sourceList, replicaList)` as written: the first loop runs `SyncName` on
    each source name, the second removes each stale name, and an error ends the pass. The
    result is the reference pass `Reconcile`, whose frame `ReconcileFrame` states whether
    or not the pass raises. For duplicate-free lists it therefore converges the listed
    files, removes the stale ones and touches nothing else.
  */
  method ContentSync(md5: Md5, source: Dir, replica: Dir, sourceList: seq<string>, replicaList: seq<string>)
    returns (replica': Dir, log: seq<Action>, status: Status)
    ensures Run(replica', log, status) == Reconcile(md5, source, replica, sourceList, replicaList)
    ensures Distinct(sourceList) && Distinct(replicaList) ==>
              (status.Completed? <==> AllReady(source, replica, sourceList, replicaList))
    ensures Distinct(sourceList) && Distinct(replicaList) && status.Completed? ==>
              && (forall name | name in sourceList ::
                    IsFile(replica', name) && md5(replica'[name].data) == md5(source[name].data))
              && (forall name | name in replicaList && name !in sourceList :: name !in replica')
              && (forall name | name !in sourceList && name !in replicaList :: Agrees(replica', replica, name))
  {
    replica', log, status := replica, [], Completed;
    var i := 0;
    while i < |sourceList| && status.Completed?
      invariant i <= |sourceList|
      invariant Run(replica', log, status) == SourcePass(md5, source, replica, replicaList, sourceList[..i])
    {
      assert sourceList[..i + 1][..i] == sourceList[..i];
      var synced := SyncName(md5, source, replica', replicaList, sourceList[i]);
      match synced {
        case Err(e) =>
          status := Raised(e);
        case Ok((written, action)) =>
          replica', log := written, log + [action];
      }
      i := i + 1;
    }
    if status.Raised? {
      SourcePassRaisedIsFinal(md5, source, replica, replicaList, sourceList, i);
    } else {
      assert sourceList[..i] == sourceList;
    }
    ghost var start := SourcePass(md5, source, replica, replicaList, sourceList);
    var j := 0;
    while j < |replicaList| && status.Completed?
      invariant j <= |replicaList|
      invariant Run(replica', log, status) == RemovePass(sourceList, start, replicaList[..j])
    {
      var name := replicaList[j];
      assert replicaList[..j + 1][..j] == replicaList[..j];
      if name !in sourceList {
        var removed := Remove(replica', name);
        if removed.Err? {
          status := Raised(removed.error);
        } else {
          replica', log := removed.value, log + [Removed(name)];
        }
      }
      j := j + 1;
    }
    if status.Raised? {
      RemovePassRaisedIsFinal(sourceList, start, replicaList, j);
    } else {
      assert replicaList[..j] == replicaList;
    }
    if Distinct(sourceList) && Distinct(replicaList) {
      ReconcileRaises(md5, source, replica, sourceList, replicaList);
      if status.Completed? {
        ReconcileReplica(md5, source, replica, sourceList, replicaList);
      }
    }
  }

}
